=== FILE: README.md ===
# Specification reviewer: the cell-annotation engine

The specification reviewer scans the tables of a word-processing document and
annotates cells that break its conventions. An annotation, a "finding", is a
bold run in red (`FF0000`) whose text is an upper-case label. The labels are
"EMPTY", "REDUNDANT SPACES", "DASH INSTEAD OF HYPHEN", "MISSING HYPHEN" and
"MISSING ALIGNMENT/FORMATTING COMMENT". The same heuristic (bold, red, upper
case once stripped) recognises earlier findings on a later pass, and that is
what keeps a second run from annotating the same cell twice.

This project models that engine: the seven functions at the top of
`spec-reviewer.py`. It uses immutable values:

- `Docx.Run` has text, raw markup (the run's serialised XML), bold, colour and underline;
- `Docx.Paragraph` has an alignment and a sequence of runs;
- `Docx.Cell` is a sequence of paragraphs;
- a header row is a sequence of cells.

Each operation that edits a cell in place in Python is a pure function here.
It returns the edited cell, plus the boolean or `None` that the Python code
returns.

Files:

- `wrappers.dfy` (module `Wrappers`): `Option`, for Python's value-or-`None` results.
- `seqs.dfy` (module `Seqs`): the first-match search and the all-elements test that the scans share.
- `pytext.dfy` (module `PyText`): the Python `str` operations used, namely `strip`, `isupper`, `upper` and `in`.
- `docx.dfy` (module `Docx`): the document values, cell text, and "equal except for underline".
- `reviewer.dfy` (module `SpecReviewer`): the seven functions of the engine.
- `properties.dfy` (module `ReviewerProperties`): recognisability, idempotence, and worked examples.

Some behaviour of the code is easy to misread, and the model follows the code:

- **Hyphen rules.** They are three independent `if`s, not a ranked list that stops at the first match. So one cell can get both REDUNDANT SPACES and DASH INSTEAD OF HYPHEN, in that order (`SpacedHyphenAndDashBothReported`).
- **"N/A".** The exemption from MISSING HYPHEN is a substring test: "N/A" anywhere in the text counts, not only a value that is exactly "N/A" (`NotApplicableIsASubstringTest`).
- **Recogniser.** `check_for_existing_findings` takes no label to look for. Any bold red upper-case run counts, whichever rule wrote it.
- **Line breaks.** No rule looks at line breaks in a cell.

## Model

| member | source | states |
|---|---|---|
| `SpecReviewer.IsEmptyCell` | spec-reviewer.py:7-14 | A cell is empty exactly when the raw markup of every run in every paragraph is whitespace only. A cell with no runs is empty. |
| `ReviewerProperties.EmptinessByRuns` | spec-reviewer.py:7-14 | One run whose markup has a visible character makes the cell non-empty. The same paragraphs with their runs removed make an empty cell. |
| `SpecReviewer.CommentFormatting` | spec-reviewer.py:16-18 | Appends exactly one run at the end of the paragraph, bold, red, with the given text and non-blank markup. Earlier runs and the alignment are unchanged. |
| `ReviewerProperties.AnnotationIsRecognised` | spec-reviewer.py:16-18 | After `CommentFormatting` with any of the five labels, in any paragraph, the recogniser reports a finding. |
| `ReviewerProperties.LabelsAreUpper` | spec-reviewer.py:71-73 | Every label the reviewer writes passes the recogniser's `strip().isupper()` test. |
| `SpecReviewer.MarkEmptyCells` | spec-reviewer.py:20-25 | An empty cell gains exactly one run, "EMPTY", at the end of its first paragraph. Any other cell is returned unchanged. Afterwards the cell is never empty. |
| `ReviewerProperties.MarkEmptyCellsIdempotent` | spec-reviewer.py:20-25 | Marking a cell twice gives the same cell as marking it once. |
| `SpecReviewer.CheckForExistingFindings` | spec-reviewer.py:68-76 | Returns true exactly when some run is bold, red and upper case once stripped. Then it underlines only the first such run in paragraph-then-run order. When it returns false, the paragraphs are unchanged. |
| `SpecReviewer.FindingsSurviveScan` | spec-reviewer.py:68-76 | Underlining keeps every finding a finding. Scanning the scanned paragraphs again gives the same paragraphs and the same answer. |
| `SpecReviewer.UnderlineAtIsSameUpToUnderline` | spec-reviewer.py:74 | The recogniser's only edit keeps every run's text, markup, bold and colour, and every paragraph's alignment. |
| `Docx.CellTextHasRun` | spec-reviewer.py:60 | The text of every run of a cell occurs in the cell text, which joins the paragraphs' texts with line breaks. So a note such as "center aligned" typed within one run is seen by the `in` test. |
| `Docx.ParagraphsTextHasParagraph` | spec-reviewer.py:28 | Each paragraph's text occurs in the cell text the hyphen rules strip and test. |
| `PyText.ContainsParts` | spec-reviewer.py:32 | Text that contains " -" or "- " contains "-". |
| `PyText.ContainsTrans` | spec-reviewer.py:60 | The `in` test is transitive: what occurs in a part of a text occurs in the text. |
| `Docx.UnderlineKeepsText` | spec-reviewer.py:60 | Paragraphs that differ only in underline have the same cell text, so the "center aligned" test cannot change. |
| `SpecReviewer.CheckAndMarkCdashCells` | spec-reviewer.py:27-44 | A cell with a finding gets no new run and the return is `None`; its paragraphs are exactly what the recogniser leaves, so only the first finding is underlined. Otherwise the return is `False`, and on the stripped cell text: REDUNDANT SPACES is added iff the text contains " -" or "- "; DASH INSTEAD OF HYPHEN iff it contains an em dash; MISSING HYPHEN iff it contains none of "-", the em dash and "N/A". The labels go only to the first paragraph, each at most once, in the order of the rules. |
| `SpecReviewer.CdashRulesVerdict` | spec-reviewer.py:32-42 | The three independent `if`s append exactly the labels the rules call for, in the order of the `if`s. The first rule's separate test for "-" is implied by its test for " -" or "- ". |
| `ReviewerProperties.CdashVerdictIsExact` | spec-reviewer.py:32-42 | Which rules fire fixes the whole list of added labels: REDUNDANT SPACES, DASH INSTEAD OF HYPHEN and MISSING HYPHEN, each present exactly when its rule fires, in that order. |
| `ReviewerProperties.MissingHyphenExcludesOthers` | spec-reviewer.py:32-42 | MISSING HYPHEN never appears together with REDUNDANT SPACES or DASH INSTEAD OF HYPHEN. |
| `ReviewerProperties.CdashIdempotent` | spec-reviewer.py:27-44 | A second application to the first one's result adds no run and changes nothing but underline; like every call, the second one returns None or False (the contract of `CheckAndMarkCdashCells`). |
| `ReviewerProperties.SpacedHyphenAndDashBothReported` | spec-reviewer.py:32-38 | "a - b—c" gets exactly REDUNDANT SPACES then DASH INSTEAD OF HYPHEN. |
| `ReviewerProperties.NotApplicableIsASubstringTest` | spec-reviewer.py:40-42 | "see N/A" gets no label, because the "N/A" test is a substring test. |
| `ReviewerProperties.NoHyphenReported` | spec-reviewer.py:40-42 | "foobar" gets MISSING HYPHEN and nothing else. |
| `PyText.Upper` | spec-reviewer.py:48 | `upper` keeps the length, maps each lower-case letter to the upper-case letter at the same place in the alphabet, keeps every other character, and leaves no lower-case letter. |
| `PyText.UpperKeepsOccurrence` | spec-reviewer.py:48 | An occurrence of a word in a text becomes an occurrence of the word's upper-case form in the upper-cased text. |
| `SpecReviewer.FindCdashColumn` | spec-reviewer.py:46-50 | Returns the least index whose upper-cased header text contains "CDASH". Returns none exactly when no header does. |
| `ReviewerProperties.CdashHeaderAnyCase` | spec-reviewer.py:48 | A header that contains "cdash" in lower case is found, at its own index or earlier. |
| `SpecReviewer.AlignmentLoop` | spec-reviewer.py:55-64 | The loop reports a missing note exactly when some paragraph is centred, the last cell lacks "center aligned", and the last cell has no finding. It then appends exactly one finding. When a centred paragraph meets an existing finding, the only effect is the recogniser's underline. Otherwise the last cell is untouched. |
| `SpecReviewer.CheckAndMarkAlignmentIssue` | spec-reviewer.py:52-66 | Returns true exactly when the cell has a centred paragraph, the last cell's text lacks "center aligned", and the last cell has no finding. Then exactly one run, MISSING ALIGNMENT/FORMATTING COMMENT, is added to the last cell's first paragraph. Otherwise no run is added anywhere; when the last cell already holds a finding, only its first finding is underlined. |
| `ReviewerProperties.AlignmentReadsOnlyAlignments` | spec-reviewer.py:55-59 | Two checked cells whose paragraphs have the same alignments give the same answer and the same last cell, whatever runs they hold. |
| `ReviewerProperties.AlignmentSecondCallReportsNothing` | spec-reviewer.py:52-66 | Calling the rule again against the last cell the first call returned gives false and adds no run. |
| `PyText.IsUpperScanMeaning` | spec-reviewer.py:73 | CPython's `isupper` scan is true exactly when the text has an upper-case letter and no lower-case one. The scan fails on the first lower-case letter and remembers whether it has seen an upper-case one. |
| `PyText.StripKeepsIsUpper` | spec-reviewer.py:72-73 | Stripping whitespace never changes `isupper`, because whitespace is uncased. |
| `PyText.Strip` | spec-reviewer.py:12 | `strip` leaves nothing exactly when the text is all whitespace, so the emptiness test on a run's markup means "whitespace only". |
| `PyText.StripIsMiddle` | spec-reviewer.py:28 | What `strip` keeps is a slice of the text, and everything it removes, at either end, is whitespace. |
| `PyText.TrimStart` | spec-reviewer.py:28 | The left half of `strip` removes a prefix made only of whitespace and stops at the first other character. |
| `PyText.TrimEnd` | spec-reviewer.py:28 | The right half of `strip` removes a suffix made only of whitespace and stops at the last other character. |

## Left out

- The `__main__` driver (spec-reviewer.py:78-134) is I/O: argument handling, file checks, loading and saving the document, coloured console output and launching a viewer, so it is not modelled. Its traversal is still well defined. It calls two names that the file never defines, and Python raises `NameError` when such a call is reached. `download_box_file` is reached only when the argument is not an existing path (spec-reviewer.py:84-87). `mark_empty_cells_with` is reached at the first empty cell (spec-reviewer.py:118-122), after that table's alignment pass (spec-reviewer.py:96-108) and hyphen pass (spec-reviewer.py:110-116). The error then ends the run before `document.save` (spec-reviewer.py:126), so nothing is written. Without an empty cell the traversal completes. The defined `mark_empty_cells` is never called by the driver. Because `check_and_mark_cdash_cells` returns only `None` or `False` (the contract of `SpecReviewer.CheckAndMarkCdashCells`), the `if` at spec-reviewer.py:114 never holds. So hyphen findings alone never set `modified`: a run whose only new findings are hyphen findings prints "No findings found!" and saves nothing.
- python-docx internals are abstracted. A run's serialised XML is the `raw` field. The markup of a run the reviewer adds is `FindingMarkup`, which only has to be non-blank. `RGBColor` is `Docx.Color`, and `WD_PARAGRAPH_ALIGNMENT` is `Docx.Alignment`.
- Paragraph alignment inherited from a style is `Inherited`, which is never `Center`. python-docx reports `None` for it too.
- Underline styles other than on/off are not distinguished. The reviewer only ever sets underline on.
- Case is modelled for the ASCII letters only. Every other character, the em dash included, is uncased. Python's `upper()` maps a few non-ASCII letters to ASCII ones (`'ſ'` to `'S'`); that case of the CDASH header search is not modelled.
- `SpecReviewer.MarkEmptyCells`: requires a cell with at least one paragraph. The source raises `IndexError` on a cell with none; the document format never produces one.
- `SpecReviewer.CheckAndMarkCdashCells`: requires a cell with at least one paragraph, for the same reason.
- `SpecReviewer.CheckAndMarkAlignmentIssue`: requires the last cell to have a paragraph whenever the checked cell has one. That is when the source indexes it.
- A table without rows makes `find_cdash_column` raise `IndexError`. The model takes the header row itself, so that case does not arise.
- The source edits cells in place. The model takes the checked cell and the last cell as separate values. python-docx lists a horizontally merged cell once for each grid column it spans. So when the last cell of a row is merged, the driver (spec-reviewer.py:98-100) passes the same cell as both arguments of the alignment rule. The answer is the same either way, because the rule reads only the alignments of the checked cell's paragraphs (`AlignmentReadsOnlyAlignments`), and appending or underlining a run keeps every alignment.
- `Docx.CellText`: the text of a paragraph is the text of its runs. python-docx's `cell.text` also takes in text outside the paragraph's direct runs, such as hyperlink text, which `paragraph.runs` leaves out. Such text is not represented, so a note inside a hyperlink is not modelled.

=== FILE: docx.dfy ===
/**
 The slice of the word-processing document model the reviewer touches:
 a table cell holds paragraphs, a paragraph holds styled runs.

 Values are immutable; an operation that edits a cell returns the edited cell.
 */
module Docx {
  import opened PyText

  /**
   A run property that is either set on the run or left to the style
   (python-docx reports `None` for the latter, which Python treats as false).
   */
  datatype Toggle = Inherit | On | Off

  newtype byte = x: int | 0 <= x < 256

  /** A run's font colour: an explicit RGB value or none. */
  datatype Color = NoRgb | Rgb(red: byte, green: byte, blue: byte)

  /** The alert colour findings are written in, `RGBColor(0xFF, 0, 0)`. */
  const AlertRed: Color := Rgb(0xFF, 0, 0)

  /** A paragraph's own alignment; `Inherited` when the paragraph sets none. */
  datatype Alignment = Inherited | Left | Center | Right | Justify | Distribute | OtherAlignment

  /**
   A styled run: its text, its serialised markup `raw` (which also carries
   pictures and other non-text content), and its font properties.
   */
  datatype Run = Run(text: string, raw: string, bold: Toggle, color: Color, underline: Toggle)

  datatype Paragraph = Paragraph(alignment: Alignment, runs: seq<Run>)

  datatype Cell = Cell(paragraphs: seq<Paragraph>)

  /** A paragraph's text: its runs' texts, concatenated. */
  function RunsText(rs: seq<Run>): string
  {
    if |rs| == 0 then "" else RunsText(rs[..|rs| - 1]) + rs[|rs| - 1].text
  }

  /** A cell's text: its paragraphs' texts joined by line breaks. */
  function ParagraphsText(ps: seq<Paragraph>): string
  {
    if |ps| == 0 then ""
    else if |ps| == 1 then RunsText(ps[0].runs)
    else ParagraphsText(ps[..|ps| - 1]) + "\n" + RunsText(ps[|ps| - 1].runs)
  }

  function CellText(c: Cell): string
  {
    ParagraphsText(c.paragraphs)
  }

  /** Two runs that differ at most in their underline. */
  predicate SameRunUpToUnderline(a: Run, b: Run) {
    a.(underline := b.underline) == b
  }

  /** Two paragraph sequences with the same runs in the same places, underline aside. */
  predicate SameUpToUnderline(ps: seq<Paragraph>, qs: seq<Paragraph>) {
    && |ps| == |qs|
    && (forall i :: 0 <= i < |ps| ==>
          ps[i].alignment == qs[i].alignment && |ps[i].runs| == |qs[i].runs|)
    && (forall i, j :: 0 <= i < |ps| && 0 <= j < |ps[i].runs| ==>
          SameRunUpToUnderline(ps[i].runs[j], qs[i].runs[j]))
  }

  lemma SameUpToUnderlineReflexive(ps: seq<Paragraph>)
    ensures SameUpToUnderline(ps, ps)
  {
  }

  /** Underline never shows up in a run's text, so it never changes a cell's text. */
  lemma {:induction false} UnderlineKeepsText(ps: seq<Paragraph>, qs: seq<Paragraph>)
    requires SameUpToUnderline(ps, qs)
    ensures ParagraphsText(ps) == ParagraphsText(qs)
  {
    if |ps| > 1 {
      UnderlineKeepsText(ps[..|ps| - 1], qs[..|qs| - 1]);
    }
    if |ps| > 0 {
      UnderlineKeepsRunsText(ps[|ps| - 1].runs, qs[|qs| - 1].runs);
      if |ps| == 1 {
        UnderlineKeepsRunsText(ps[0].runs, qs[0].runs);
      }
    }
  }

  lemma {:induction false} UnderlineKeepsRunsText(rs: seq<Run>, ts: seq<Run>)
    requires |rs| == |ts|
    requires forall j :: 0 <= j < |rs| ==> SameRunUpToUnderline(rs[j], ts[j])
    ensures RunsText(rs) == RunsText(ts)
  {
    if |rs| > 0 {
      assert SameRunUpToUnderline(rs[|rs| - 1], ts[|ts| - 1]);
      UnderlineKeepsRunsText(rs[..|rs| - 1], ts[..|ts| - 1]);
    }
  }

  /** The text of each run occurs in the text of its paragraph. */
  lemma {:induction false} RunsTextHasRun(rs: seq<Run>, j: int)
    requires 0 <= j < |rs|
    ensures Contains(RunsText(rs), rs[j].text)
  {
    var init := rs[..|rs| - 1];
    ContainsConcat(RunsText(init), rs[|rs| - 1].text);
    if j < |rs| - 1 {
      RunsTextHasRun(init, j);
      assert init[j] == rs[j];
      ContainsTrans(RunsText(rs), RunsText(init), rs[j].text);
    }
  }

  /** The text of each paragraph occurs in the joined text of the paragraphs. */
  lemma {:induction false} ParagraphsTextHasParagraph(ps: seq<Paragraph>, i: int)
    requires 0 <= i < |ps|
    ensures Contains(ParagraphsText(ps), RunsText(ps[i].runs))
  {
    if |ps| == 1 {
      ContainsConcat(RunsText(ps[0].runs), "");
      assert RunsText(ps[0].runs) + "" == RunsText(ps[0].runs);
    } else {
      var init := ps[..|ps| - 1];
      var front := ParagraphsText(init) + "\n";
      ContainsConcat(front, RunsText(ps[|ps| - 1].runs));
      if i < |ps| - 1 {
        ParagraphsTextHasParagraph(init, i);
        assert init[i] == ps[i];
        ContainsConcat(ParagraphsText(init), "\n");
        ContainsTrans(front, ParagraphsText(init), RunsText(ps[i].runs));
        ContainsTrans(ParagraphsText(ps), front, RunsText(ps[i].runs));
      }
    }
  }

  /**
   The text of any run of a cell occurs in the cell's text, so a note such as
   "center aligned" typed within one run is seen by a test on the cell text.
   */
  lemma CellTextHasRun(c: Cell, i: int, j: int)
    requires 0 <= i < |c.paragraphs| && 0 <= j < |c.paragraphs[i].runs|
    ensures Contains(CellText(c), c.paragraphs[i].runs[j].text)
  {
    var rs := c.paragraphs[i].runs;
    RunsTextHasRun(rs, j);
    ParagraphsTextHasParagraph(c.paragraphs, i);
    ContainsTrans(CellText(c), RunsText(rs), rs[j].text);
  }
}

=== FILE: properties.dfy ===
/**
 Properties that relate several operations of the reviewer: every label it
 writes is recognised as a finding on the next pass, and each rule applied a
 second time adds nothing.
 */
module ReviewerProperties {
  import opened Wrappers
  import opened PyText
  import opened Docx
  import opened SpecReviewer

  /** Every label the reviewer writes. */
  const FindingLabels: set<string> :=
    {EmptyLabel, RedundantSpacesLabel, DashLabel, MissingHyphenLabel, MissingAlignmentLabel}

  /** A text with an upper-case letter and no lower-case one passes `strip().isupper()`. */
  lemma UpperTextIsRecognised(text: string, k: int)
    requires 0 <= k < |text| && IsUpperChar(text[k])
    requires forall i :: 0 <= i < |text| ==> !IsLowerChar(text[i])
    ensures IsUpper(Strip(text))
  {
    StripKeepsIsUpper(text);
    IsUpperMeaning(text);
  }

  /** Each of the reviewer's labels reads as upper case once stripped. */
  lemma LabelsAreUpper(text: string)
    requires text in FindingLabels
    ensures IsUpper(Strip(text))
  {
    if text == EmptyLabel {
      UpperTextIsRecognised(text, 0);
    } else {
      UpperTextIsRecognised(text, 1);
    }
  }

  /**
   A run appended by `CommentFormatting` with one of the reviewer's labels is
   a finding, so the recogniser reports it on the next pass.
   */
  lemma AnnotationIsRecognised(ps: seq<Paragraph>, i: int, text: string)
    requires 0 <= i < |ps|
    requires text in FindingLabels
    ensures CheckForExistingFindings(ps[i := CommentFormatting(ps[i], text)]).found
  {
    LabelsAreUpper(text);
    var qs := ps[i := CommentFormatting(ps[i], text)];
    var n := |ps[i].runs|;
    assert qs[i].runs[n].text == AddedTexts(ps[i], qs[i])[0];
    assert IsFinding(qs[i].runs[n]);
    assert RunsHaveFinding(qs[i].runs);
  }

  /** A paragraph that gained finding runs with the reviewer's labels holds a finding. */
  lemma AddedLabelsAreRecognised(p: Paragraph, q: Paragraph)
    requires AppendsFindings(p, q)
    requires |q.runs| > |p.runs|
    requires forall k :: 0 <= k < |AddedTexts(p, q)| ==> AddedTexts(p, q)[k] in FindingLabels
    ensures RunsHaveFinding(q.runs)
  {
    var n := |p.runs|;
    assert q.runs[n].text == AddedTexts(p, q)[0];
    LabelsAreUpper(q.runs[n].text);
    assert IsFinding(q.runs[n]);
  }

  /** A paragraph that gained no runs is unchanged. */
  lemma AppendedNothing(p: Paragraph, q: Paragraph)
    requires AppendsFindings(p, q) && |AddedTexts(p, q)| == 0
    ensures q == p
  {
    assert q.runs == q.runs[..|p.runs|];
  }

  // ---------------------------------------------------------------------
  // mark_empty_cells

  /** A cell without runs is empty; one run with visible markup makes it non-empty. */
  lemma EmptinessByRuns(c: Cell, i: int, j: int)
    requires 0 <= i < |c.paragraphs| && 0 <= j < |c.paragraphs[i].runs|
    requires !AllSpace(c.paragraphs[i].runs[j].raw)
    ensures !IsEmptyCell(c)
    ensures IsEmptyCell(Cell(seq(|c.paragraphs|, h requires 0 <= h < |c.paragraphs| =>
                                   c.paragraphs[h].(runs := []))))
  {
  }

  /** Marking an empty cell twice writes "EMPTY" once. */
  lemma MarkEmptyCellsIdempotent(c: Cell)
    requires |c.paragraphs| > 0
    ensures MarkEmptyCells(MarkEmptyCells(c)) == MarkEmptyCells(c)
  {
  }

  // ---------------------------------------------------------------------
  // check_and_mark_cdash_cells

  /** MISSING HYPHEN is never reported together with either of the other two rules. */
  lemma MissingHyphenExcludesOthers(t: string, added: seq<string>)
    requires CdashVerdict(t, added)
    ensures MissingHyphenLabel in added ==> RedundantSpacesLabel !in added && DashLabel !in added
  {
    if Contains(t, " -") {
      assert " " + "-" == " -";
      ContainsParts(t, " ", "-");
    }
    if Contains(t, "- ") {
      assert "-" + " " == "- ";
      ContainsParts(t, "-", " ");
    }
  }

  /** The hyphen rules either leave a finding in the cell or leave the cell as it was. */
  lemma CdashLeavesFindingOrNothing(c: Cell)
    requires |c.paragraphs| > 0
    ensures var r := CheckAndMarkCdashCells(c);
      HasFinding(r.cell.paragraphs) || r.cell == c
  {
    var r := CheckAndMarkCdashCells(c);
    var ps := r.cell.paragraphs;
    if HasFinding(c.paragraphs) {
      FindingsSurviveScan(c.paragraphs);
    } else {
      var p, q := c.paragraphs[0], ps[0];
      if |AddedTexts(p, q)| == 0 {
        AppendedNothing(p, q);
        assert ps == c.paragraphs;
      } else {
        AddedLabelsAreRecognised(p, q);
        assert HasFinding(ps);
      }
    }
  }

  /** A list in strictly increasing rule order. */
  predicate InRuleOrder(a: seq<string>) {
    forall k, l :: 0 <= k < l < |a| ==> RuleOrder(a[k]) < RuleOrder(a[l])
  }

  /** Two nonempty lists in rule order with the same members start alike. */
  lemma HeadsAgree(a: seq<string>, b: seq<string>)
    requires |a| > 0 && InRuleOrder(a) && InRuleOrder(b)
    requires forall x :: x in a <==> x in b
    ensures |b| > 0 && a[0] == b[0]
  {
    assert a[0] in a;
    var m :| 0 <= m < |b| && b[m] == a[0];
    assert b[0] in b;
    var p :| 0 <= p < |a| && a[p] == b[0];
    assert p == 0 && m == 0;
  }

  /** In a list in rule order, the head occurs nowhere in the tail. */
  lemma TailMembers(a: seq<string>, x: string)
    requires |a| > 0 && InRuleOrder(a)
    ensures x in a[1..] <==> x in a && x != a[0]
  {
    if x in a[1..] {
      var k :| 0 <= k < |a[1..]| && a[1..][k] == x;
      assert x == a[k + 1];
    }
    if x in a && x != a[0] {
      var q :| 0 <= q < |a| && a[q] == x;
      assert a[1..][q - 1] == x;
    }
  }

  /**
   Names the head of a list as a member, with no precondition. The empty case of
   `InRuleOrderUnique` needs this term: with `a` empty, a non-empty `b` would
   have a head outside `a`, and an indexing assert there would be checked under
   contradictory facts.
   */
  lemma HeadIsMember(xs: seq<string>)
    ensures |xs| > 0 ==> xs[0] in xs
  {
  }

  /** Two lists in strictly increasing rule order with the same members are the same list. */
  lemma {:induction false} InRuleOrderUnique(a: seq<string>, b: seq<string>)
    requires InRuleOrder(a) && InRuleOrder(b)
    requires forall x :: x in a <==> x in b
    ensures a == b
  {
    if |a| == 0 {
      HeadIsMember(b);
    } else {
      HeadsAgree(a, b);
      forall x
        ensures x in a[1..] <==> x in b[1..]
      {
        TailMembers(a, x);
        TailMembers(b, x);
      }
      assert InRuleOrder(a[1..]) && InRuleOrder(b[1..]);
      InRuleOrderUnique(a[1..], b[1..]);
      assert a == [a[0]] + a[1..] && b == [b[0]] + b[1..];
    }
  }

  /** The verdict of the hyphen rules leaves no freedom: it fixes the added labels and their order. */
  lemma CdashVerdictIsExact(t: string, added: seq<string>)
    requires CdashVerdict(t, added)
    ensures added == RuleLabels(Contains(t, " -") || Contains(t, "- "), Contains(t, EmDash),
                                !Contains(t, Hyphen) && !Contains(t, EmDash) && !Contains(t, NotApplicable))
  {
    var spaced := Contains(t, " -") || Contains(t, "- ");
    var dashed := Contains(t, EmDash);
    var missing := !Contains(t, Hyphen) && !Contains(t, EmDash) && !Contains(t, NotApplicable);
    RuleListIsRuleLabels(added, spaced, dashed, missing);
  }

  /** A list of the three labels in rule order is fixed by which of them it holds. */
  lemma RuleListIsRuleLabels(added: seq<string>, spaced: bool, dashed: bool, missing: bool)
    requires RedundantSpacesLabel in added <==> spaced
    requires DashLabel in added <==> dashed
    requires MissingHyphenLabel in added <==> missing
    requires forall k :: 0 <= k < |added| ==>
               added[k] == RedundantSpacesLabel || added[k] == DashLabel || added[k] == MissingHyphenLabel
    requires InRuleOrder(added)
    ensures added == RuleLabels(spaced, dashed, missing)
  {
    var expected := RuleLabels(spaced, dashed, missing);
    RuleLabelsInOrder(spaced, dashed, missing);
    forall x
      ensures x in added <==> x in expected
    {
      if x in added {
        var k :| 0 <= k < |added| && added[k] == x;
      }
      if x in expected {
        var k :| 0 <= k < |expected| && expected[k] == x;
      }
    }
    InRuleOrderUnique(added, expected);
  }

  /**
   Applying the hyphen rules to their own result adds no run: either the first
   pass left a finding, which the second pass recognises, or it wrote nothing
   and the second pass sees the same cell. Neither pass returns true.
   */
  lemma CdashIdempotent(c: Cell)
    requires |c.paragraphs| > 0
    ensures var r1 := CheckAndMarkCdashCells(c);
      var r2 := CheckAndMarkCdashCells(r1.cell);
      && SameUpToUnderline(r1.cell.paragraphs, r2.cell.paragraphs)
      && r2.returned != Some(true)
  {
    var r1 := CheckAndMarkCdashCells(c);
    CdashLeavesFindingOrNothing(c);
    if r1.cell == c {
      SameUpToUnderlineReflexive(c.paragraphs);
    }
  }

  /** A cell of the CDASH column holding just the given text, in plain style. */
  function PlainCell(text: string): Cell {
    Cell([Paragraph(Inherited, [Run(text, "<w:r/>", Inherit, NoRgb, Inherit)])])
  }

  lemma PlainCellText(text: string)
    ensures CellText(PlainCell(text)) == text
    ensures !HasFinding(PlainCell(text).paragraphs)
  {
    assert RunsText(PlainCell(text).paragraphs[0].runs) == RunsText([]) + text;
  }

  /** Text without a given character does not contain any string holding it. */
  lemma LacksChar(s: string, sub: string, k: int)
    requires 0 <= k < |sub| && sub[k] !in s
    ensures !Contains(s, sub)
  {
  }

  /** The verdict of the hyphen rules on a plain cell, in terms of its text alone. */
  lemma PlainCellVerdict(text: string)
    requires |text| > 0 && !IsSpace(text[0]) && !IsSpace(text[|text| - 1])
    ensures var c := PlainCell(text);
      var r := CheckAndMarkCdashCells(c);
      CdashVerdict(text, AddedTexts(c.paragraphs[0], r.cell.paragraphs[0]))
  {
    PlainCellText(text);
    StripUnpadded(text);
  }

  /** A text with a spaced hyphen and an em dash calls for exactly those two labels, in rule order. */
  lemma SpacedAndDashedLabels(t: string, added: seq<string>)
    requires CdashVerdict(t, added)
    requires Contains(t, " -") && Contains(t, EmDash)
    ensures added == [RedundantSpacesLabel, DashLabel]
  {
    CdashVerdictIsExact(t, added);
    assert RuleLabels(true, true, false) == [RedundantSpacesLabel, DashLabel];
  }

  /**
   "a - b—c" gets both REDUNDANT SPACES and DASH INSTEAD OF HYPHEN, in that
   order: the three rules apply independently, not in priority order.
   */
  lemma SpacedHyphenAndDashBothReported(t: string)
    requires t == "a - b\U{2014}c"
    ensures var c := PlainCell(t);
      var r := CheckAndMarkCdashCells(c);
      var added := AddedTexts(c.paragraphs[0], r.cell.paragraphs[0]);
      added == [RedundantSpacesLabel, DashLabel]
  {
    assert t == ['a', ' ', '-', ' ', 'b', '\U{2014}', 'c'];
    assert OccursAt(t, " -", 1);
    assert OccursAt(t, Hyphen, 2);
    assert OccursAt(t, EmDash, 5);
    PlainCellVerdict(t);
    var c := PlainCell(t);
    SpacedAndDashedLabels(t, AddedTexts(c.paragraphs[0], CheckAndMarkCdashCells(c).cell.paragraphs[0]));
  }

  /** "N/A" anywhere in the text, not only as the whole text, silences MISSING HYPHEN. */
  lemma NotApplicableIsASubstringTest(t: string)
    requires t == "see N/A"
    ensures var c := PlainCell(t);
      var r := CheckAndMarkCdashCells(c);
      AddedTexts(c.paragraphs[0], r.cell.paragraphs[0]) == []
  {
    assert OccursAt(t, NotApplicable, 4);
    assert t == ['s', 'e', 'e', ' ', 'N', '/', 'A'];
    LacksChar(t, Hyphen, 0);
    LacksChar(t, EmDash, 0);
    LacksChar(t, " -", 1);
    LacksChar(t, "- ", 0);
    PlainCellVerdict(t);
  }

  /** A value with neither hyphen, dash nor "N/A" gets MISSING HYPHEN alone. */
  lemma NoHyphenReported(t: string)
    requires t == "foobar"
    ensures var c := PlainCell(t);
      var r := CheckAndMarkCdashCells(c);
      AddedTexts(c.paragraphs[0], r.cell.paragraphs[0]) == [MissingHyphenLabel]
  {
    assert t == ['f', 'o', 'o', 'b', 'a', 'r'];
    LacksChar(t, Hyphen, 0);
    LacksChar(t, EmDash, 0);
    LacksChar(t, NotApplicable, 0);
    LacksChar(t, " -", 0);
    LacksChar(t, "- ", 0);
    PlainCellVerdict(t);
    var c := PlainCell(t);
    var added := AddedTexts(c.paragraphs[0], CheckAndMarkCdashCells(c).cell.paragraphs[0]);
    assert MissingHyphenLabel in added;
  }

  // ---------------------------------------------------------------------
  // find_cdash_column

  /** The header search ignores letter case: a header mentioning "cdash" is found. */
  lemma CdashHeaderAnyCase(header: seq<Cell>, j: int, i: int)
    requires 0 <= j < |header|
    requires OccursAt(CellText(header[j]), "cdash", i)
    ensures FindCdashColumn(header).Some? && FindCdashColumn(header).value <= j
  {
    UpperKeepsOccurrence(CellText(header[j]), "cdash", i);
    assert Upper("cdash") == CdashMarker;
    assert IsCdashHeader(header[j]);
  }

  // ---------------------------------------------------------------------
  // check_and_mark_alignment_issue

  /**
   A second alignment check against the last cell the first one returned
   reports nothing and adds no run.
   */
  lemma AlignmentSecondCallReportsNothing(cell: Cell, last: Cell)
    requires |cell.paragraphs| == 0 || |last.paragraphs| > 0
    ensures var r1 := CheckAndMarkAlignmentIssue(cell, last);
      var r2 := CheckAndMarkAlignmentIssue(cell, r1.last);
      !r2.missing && SameUpToUnderline(r1.last.paragraphs, r2.last.paragraphs)
  {
    var r1 := CheckAndMarkAlignmentIssue(cell, last);
    if r1.missing {
      var p, q := last.paragraphs[0], r1.last.paragraphs[0];
      AddedLabelsAreRecognised(p, q);
      assert HasFinding(r1.last.paragraphs);
    } else if HasCentredParagraph(cell) && !Contains(CellText(last), CenterAlignedNote) {
      ScanSummary(last);
    }
  }

  /**
   The alignment rule reads nothing of the checked cell but the alignments of
   its paragraphs. Runs added to the checked cell, or underlined in it, never
   change its answer or its effect on the last cell.
   */
  lemma AlignmentReadsOnlyAlignments(cell: Cell, cell': Cell, last: Cell)
    requires |cell.paragraphs| == |cell'.paragraphs|
    requires forall h :: 0 <= h < |cell.paragraphs| ==>
               cell.paragraphs[h].alignment == cell'.paragraphs[h].alignment
    requires |cell.paragraphs| == 0 || |last.paragraphs| > 0
    ensures CheckAndMarkAlignmentIssue(cell, last) == CheckAndMarkAlignmentIssue(cell', last)
  {
    if HasCentredParagraph(cell) {
      var h :| 0 <= h < |cell.paragraphs| && cell.paragraphs[h].alignment == Center;
      assert cell'.paragraphs[h].alignment == Center;
    }
    if HasCentredParagraph(cell') {
      var h :| 0 <= h < |cell'.paragraphs| && cell'.paragraphs[h].alignment == Center;
      assert cell.paragraphs[h].alignment == Center;
    }
    var r := AlignmentLoop(cell.paragraphs, last);
    var r' := AlignmentLoop(cell'.paragraphs, last);
    assert r.missing == r'.missing;
  }
}

=== FILE: pytext.dfy ===
/**
 The few Python `str` operations the reviewer relies on — `strip`, `isupper`,
 `upper` and the substring test `sub in s` — over Dafny strings.

 Whitespace is exactly the set of code points for which Python 3's
 `str.isspace` holds. Cased characters are the ASCII letters; every other
 character (the em dash included) is uncased.
 */
module PyText {

  /** `c.isspace()` in Python 3. */
  predicate IsSpace(c: char) {
    || ('\t' <= c <= '\r')
    || ('\U{1C}' <= c <= '\U{1F}')
    || c == ' '
    || c == '\U{85}'
    || c == '\U{A0}'
    || c == '\U{1680}'
    || ('\U{2000}' <= c <= '\U{200A}')
    || c == '\U{2028}'
    || c == '\U{2029}'
    || c == '\U{202F}'
    || c == '\U{205F}'
    || c == '\U{3000}'
  }

  predicate AllSpace(s: string) {
    forall i :: 0 <= i < |s| ==> IsSpace(s[i])
  }

  lemma AllSpaceConcat(a: string, b: string)
    requires AllSpace(a) && AllSpace(b)
    ensures AllSpace(a + b)
  {
  }

  /** `s.lstrip()`: drops the leading whitespace. */
  function TrimStart(s: string): (r: string)
    ensures |r| <= |s| && r == s[|s| - |r|..]
    ensures AllSpace(s[..|s| - |r|])
    ensures r == [] || !IsSpace(r[0])
  {
    if |s| > 0 && IsSpace(s[0]) then
      var t := s[1..];
      var r := TrimStart(t);
      assert r == s[|s| - |r|..] by { assert t[|t| - |r|..] == s[|s| - |r|..]; }
      assert s[..|s| - |r|] == [s[0]] + t[..|t| - |r|];
      AllSpaceConcat([s[0]], t[..|t| - |r|]);
      r
    else
      s
  }

  /** `s.rstrip()`: drops the trailing whitespace. */
  function TrimEnd(s: string): (r: string)
    ensures |r| <= |s| && r == s[..|r|]
    ensures AllSpace(s[|r|..])
    ensures r == [] || !IsSpace(r[|r| - 1])
  {
    if |s| > 0 && IsSpace(s[|s| - 1]) then
      var t := s[..|s| - 1];
      var r := TrimEnd(t);
      assert r == s[..|r|] by { assert t[..|r|] == s[..|r|]; }
      assert s[|r|..] == t[|r|..] + [s[|s| - 1]];
      AllSpaceConcat(t[|r|..], [s[|s| - 1]]);
      r
    else
      s
  }

  /** Number of characters `strip` removes from the front of `s`. */
  function LeadingSpace(s: string): (n: nat)
    ensures n <= |s|
  {
    |s| - |TrimStart(s)|
  }

  /** `s.strip()`: drops the whitespace at both ends; nothing is left of an all-whitespace string. */
  function Strip(s: string): (r: string)
    ensures r == [] <==> AllSpace(s)
  {
    var t := TrimStart(s);
    var r := TrimEnd(t);
    assert r == [] ==> s == s[..|s| - |t|] + t;
    r
  }

  /** `r` sits at index `n` of `s` with only whitespace around it, as `strip` leaves it. */
  predicate PaddedBy(s: string, n: int, r: string) {
    && 0 <= n && n + |r| <= |s|
    && r == s[n..n + |r|]
    && AllSpace(s[..n]) && AllSpace(s[n + |r|..])
  }

  /** A whitespace suffix `t` of `s` with a whitespace prefix `r` of it kept: `r` is padded in `s`. */
  lemma TrimmedIsPadded(s: string, t: string, r: string)
    requires |t| <= |s| && t == s[|s| - |t|..] && AllSpace(s[..|s| - |t|])
    requires |r| <= |t| && r == t[..|r|] && AllSpace(t[|r|..])
    ensures PaddedBy(s, |s| - |t|, r)
  {
    var n := |s| - |t|;
    assert s[n..n + |r|] == t[..|r|];
    assert s[n + |r|..] == t[|r|..];
  }

  /** What `strip` keeps is a slice of its argument with whitespace only around it. */
  lemma StripIsMiddle(s: string)
    ensures PaddedBy(s, LeadingSpace(s), Strip(s))
  {
    var t := TrimStart(s);
    var r := TrimEnd(t);
    assert Strip(s) == r && LeadingSpace(s) == |s| - |t|;
    TrimmedIsPadded(s, t, r);
  }

  /** A string with no whitespace at either end is its own `strip`. */
  lemma StripUnpadded(s: string)
    requires |s| > 0 && !IsSpace(s[0]) && !IsSpace(s[|s| - 1])
    ensures Strip(s) == s
  {
    assert TrimStart(s) == s;
    assert TrimEnd(s) == s;
  }

  predicate IsUpperChar(c: char) {
    'A' <= c <= 'Z'
  }

  predicate IsLowerChar(c: char) {
    'a' <= c <= 'z'
  }

  predicate HasUpperChar(s: string) {
    exists i :: 0 <= i < |s| && IsUpperChar(s[i])
  }

  predicate HasLowerChar(s: string) {
    exists i :: 0 <= i < |s| && IsLowerChar(s[i])
  }

  /**
   The scan CPython's `str.isupper` performs: fail on the first lower-case
   character, remember whether an upper-case one was seen.
   */
  function IsUpperScan(s: string, cased: bool): bool
  {
    if |s| == 0 then cased
    else if IsLowerChar(s[0]) then false
    else IsUpperScan(s[1..], cased || IsUpperChar(s[0]))
  }

  /** `s.isupper()`. */
  function IsUpper(s: string): bool
  {
    IsUpperScan(s, false)
  }

  /** The scan succeeds when an upper-case letter was seen or is still ahead, and no lower-case one is. */
  lemma {:induction false} IsUpperScanMeaning(s: string, cased: bool)
    ensures IsUpperScan(s, cased) <==> (cased || HasUpperChar(s)) && !HasLowerChar(s)
  {
    if |s| > 0 && !IsLowerChar(s[0]) {
      IsUpperScanMeaning(s[1..], cased || IsUpperChar(s[0]));
      assert HasUpperChar(s) <==> IsUpperChar(s[0]) || HasUpperChar(s[1..]) by {
        if HasUpperChar(s[1..]) {
          var i :| 0 <= i < |s[1..]| && IsUpperChar(s[1..][i]);
          assert IsUpperChar(s[i + 1]);
        }
        if HasUpperChar(s) && !IsUpperChar(s[0]) {
          var i :| 0 <= i < |s| && IsUpperChar(s[i]);
          assert IsUpperChar(s[1..][i - 1]);
        }
      }
      assert HasLowerChar(s) <==> HasLowerChar(s[1..]) by {
        if HasLowerChar(s[1..]) {
          var i :| 0 <= i < |s[1..]| && IsLowerChar(s[1..][i]);
          assert IsLowerChar(s[i + 1]);
        }
        if HasLowerChar(s) {
          var i :| 0 <= i < |s| && IsLowerChar(s[i]);
          assert IsLowerChar(s[1..][i - 1]);
        }
      }
    } else if |s| > 0 {
      assert IsLowerChar(s[0]);
    }
  }

  /** `s.isupper()` holds exactly when `s` has an upper-case letter and no lower-case one. */
  lemma IsUpperMeaning(s: string)
    ensures IsUpper(s) <==> HasUpperChar(s) && !HasLowerChar(s)
  {
    IsUpperScanMeaning(s, false);
  }

  /** `c.upper()` for the cased characters of this model: a letter's capital sits at the same place in the alphabet. */
  function UpperChar(c: char): (u: char)
    ensures IsLowerChar(c) ==> IsUpperChar(u)
    ensures IsLowerChar(c) ==> u as int - 'A' as int == c as int - 'a' as int
    ensures !IsLowerChar(c) ==> u == c
  {
    if IsLowerChar(c) then (c as int - 'a' as int + 'A' as int) as char else c
  }

  /**
   `s.upper()`: every lower-case letter becomes the same letter in upper case,
   every other character is kept, and no lower-case letter is left.
   */
  function Upper(s: string): (r: string)
    ensures |r| == |s|
    ensures forall i :: 0 <= i < |s| ==> r[i] == UpperChar(s[i])
    ensures forall i :: 0 <= i < |s| && IsLowerChar(s[i]) ==>
              IsUpperChar(r[i]) && r[i] as int - 'A' as int == s[i] as int - 'a' as int
    ensures forall i :: 0 <= i < |s| && !IsLowerChar(s[i]) ==> r[i] == s[i]
    ensures !HasLowerChar(r)
  {
    seq(|s|, i requires 0 <= i < |s| => UpperChar(s[i]))
  }

  /** `sub` occurs in `s` starting at index `i`. */
  predicate OccursAt(s: string, sub: string, i: int) {
    0 <= i && i + |sub| <= |s| && s[i..i + |sub|] == sub
  }

  /** Python's `sub in s`. */
  predicate Contains(s: string, sub: string) {
    exists i :: 0 <= i <= |s| - |sub| && OccursAt(s, sub, i)
  }

  /** Every character of `s` is either padding whitespace or a character of `r`, in place. */
  lemma PaddedSplit(s: string, n: int, r: string, i: int)
    requires PaddedBy(s, n, r) && 0 <= i < |s|
    ensures IsSpace(s[i]) || (n <= i < n + |r| && r[i - n] == s[i])
  {
    if i < n {
      assert s[i] == s[..n][i];
    } else if i >= n + |r| {
      assert s[i] == s[n + |r|..][i - n - |r|];
    }
  }

  lemma PaddedKeepsUpperChar(s: string, n: int, r: string)
    requires PaddedBy(s, n, r)
    ensures HasUpperChar(r) == HasUpperChar(s)
  {
    if HasUpperChar(s) {
      var i :| 0 <= i < |s| && IsUpperChar(s[i]);
      PaddedSplit(s, n, r, i);
      assert IsUpperChar(r[i - n]);
    }
    if HasUpperChar(r) {
      var i :| 0 <= i < |r| && IsUpperChar(r[i]);
      assert IsUpperChar(s[n + i]);
    }
  }

  lemma PaddedKeepsLowerChar(s: string, n: int, r: string)
    requires PaddedBy(s, n, r)
    ensures HasLowerChar(r) == HasLowerChar(s)
  {
    if HasLowerChar(s) {
      var i :| 0 <= i < |s| && IsLowerChar(s[i]);
      PaddedSplit(s, n, r, i);
      assert IsLowerChar(r[i - n]);
    }
    if HasLowerChar(r) {
      var i :| 0 <= i < |r| && IsLowerChar(r[i]);
      assert IsLowerChar(s[n + i]);
    }
  }

  /** Whitespace is uncased, so `strip` never changes the answer of `isupper`. */
  lemma StripKeepsIsUpper(s: string)
    ensures IsUpper(Strip(s)) == IsUpper(s)
  {
    StripIsMiddle(s);
    PaddedKeepsUpperChar(s, LeadingSpace(s), Strip(s));
    PaddedKeepsLowerChar(s, LeadingSpace(s), Strip(s));
    IsUpperMeaning(s);
    IsUpperMeaning(Strip(s));
  }

  /** A string containing `a + b` contains `a` and contains `b`. */
  lemma ContainsParts(s: string, a: string, b: string)
    requires Contains(s, a + b)
    ensures Contains(s, a) && Contains(s, b)
  {
    var i :| 0 <= i <= |s| - |a + b| && OccursAt(s, a + b, i);
    assert s[i..i + |a|] == (a + b)[..|a|] == a;
    assert OccursAt(s, a, i);
    assert s[i + |a|..i + |a| + |b|] == (a + b)[|a|..] == b;
    assert OccursAt(s, b, i + |a|);
  }

  /** Both parts of a concatenation occur in it. */
  lemma ContainsConcat(a: string, b: string)
    ensures Contains(a + b, a) && Contains(a + b, b)
  {
    assert OccursAt(a + b, a, 0);
    assert OccursAt(a + b, b, |a|);
  }

  /** Containment is transitive: what occurs in a part occurs in the whole. */
  lemma ContainsTrans(a: string, b: string, c: string)
    requires Contains(a, b) && Contains(b, c)
    ensures Contains(a, c)
  {
    var i :| 0 <= i <= |a| - |b| && OccursAt(a, b, i);
    var j :| 0 <= j <= |b| - |c| && OccursAt(b, c, j);
    forall k | 0 <= k < |c|
      ensures a[i + j..i + j + |c|][k] == c[k]
    {
      assert c[k] == b[j..j + |c|][k] == b[j + k];
      assert b[j + k] == a[i..i + |b|][j + k] == a[i + j + k];
    }
    assert OccursAt(a, c, i + j);
  }

  /** `upper` maps an occurrence of a lower-case word onto its upper-case form. */
  lemma UpperKeepsOccurrence(s: string, sub: string, i: int)
    requires OccursAt(s, sub, i)
    ensures OccursAt(Upper(s), Upper(sub), i)
  {
    var u := Upper(s);
    forall k | 0 <= k < |sub|
      ensures u[i..i + |sub|][k] == Upper(sub)[k]
    {
      assert s[i..i + |sub|][k] == sub[k];
    }
  }
}

=== FILE: reviewer.dfy ===
/**
 The cell-annotation engine of the specification reviewer (spec-reviewer.py).

 Each rule inspects a table cell and, when the cell breaks a convention,
 appends a "finding": a bold run in the alert colour whose text is an
 upper-case label. The recogniser `CheckForExistingFindings` spots such runs
 on a later pass, which is what keeps repeated runs of the reviewer from
 piling up the same finding.
 */
module SpecReviewer {
  import opened Wrappers
  import opened Seqs
  import opened PyText
  import opened Docx

  const EmptyLabel := "EMPTY"
  const RedundantSpacesLabel := "\nREDUNDANT SPACES"
  const DashLabel := "\nDASH INSTEAD OF HYPHEN"
  const MissingHyphenLabel := "\nMISSING HYPHEN"
  const MissingAlignmentLabel := "\nMISSING ALIGNMENT/FORMATTING COMMENT"

  const Hyphen := "-"
  const EmDash := "\U{2014}"
  const NotApplicable := "N/A"
  const CenterAlignedNote := "center aligned"
  const CdashMarker := "CDASH"

  // ---------------------------------------------------------------------
  // is_empty_cell

  /** A run whose markup `strip` reduces to nothing. */
  predicate BlankRun(r: Run) {
    Strip(r.raw) == ""
  }

  function RunsEmpty(rs: seq<Run>): (r: bool)
    ensures r <==> forall j :: 0 <= j < |rs| ==> AllSpace(rs[j].raw)
  {
    AllOf(BlankRun, rs)
  }

  predicate BlankParagraph(p: Paragraph) {
    RunsEmpty(p.runs)
  }

  function ParagraphsEmpty(ps: seq<Paragraph>): (r: bool)
    ensures r <==> forall i, j :: 0 <= i < |ps| && 0 <= j < |ps[i].runs| ==> AllSpace(ps[i].runs[j].raw)
  {
    AllOf(BlankParagraph, ps)
  }

  /**
   A cell is empty when the markup of every run in it is blank. The test
   looks at the markup rather than the text, so a run holding only a picture
   keeps the cell from being empty.
   */
  function IsEmptyCell(c: Cell): (r: bool)
    ensures r <==> forall i, j :: 0 <= i < |c.paragraphs| && 0 <= j < |c.paragraphs[i].runs| ==>
                     AllSpace(c.paragraphs[i].runs[j].raw)
  {
    ParagraphsEmpty(c.paragraphs)
  }

  // ---------------------------------------------------------------------
  // comment_formatting

  /** The markup of a run the reviewer adds; all that matters is that it is not blank. */
  function FindingMarkup(text: string): (m: string)
    ensures !AllSpace(m)
  {
    var m := "<w:r>" + text + "</w:r>";
    assert !IsSpace(m[0]);
    m
  }

  /** `q` is `p` with runs appended at its end, each bold and in the alert colour. */
  predicate AppendsFindings(p: Paragraph, q: Paragraph) {
    && q.alignment == p.alignment
    && |p.runs| <= |q.runs|
    && q.runs[..|p.runs|] == p.runs
    && forall k :: |p.runs| <= k < |q.runs| ==>
         q.runs[k].bold == On && q.runs[k].color == AlertRed && !AllSpace(q.runs[k].raw)
  }

  /** The texts of the runs `q` has beyond those of `p`. */
  function AddedTexts(p: Paragraph, q: Paragraph): seq<string>
    requires |p.runs| <= |q.runs|
  {
    seq(|q.runs| - |p.runs|, k requires 0 <= k < |q.runs| - |p.runs| => q.runs[|p.runs| + k].text)
  }

  /** Appends one finding run with the given text at the end of the paragraph. */
  function CommentFormatting(p: Paragraph, text: string): (r: Paragraph)
    ensures AppendsFindings(p, r)
    ensures AddedTexts(p, r) == [text]
  {
    var r := p.(runs := p.runs + [Run(text, FindingMarkup(text), On, AlertRed, Inherit)]);
    assert r.runs[..|p.runs|] == p.runs;
    r
  }

  /** `CommentFormatting` applied to the first paragraph of a cell. */
  function CommentFirstParagraph(c: Cell, text: string): (r: Cell)
    requires |c.paragraphs| > 0
    ensures |r.paragraphs| == |c.paragraphs| && r.paragraphs[1..] == c.paragraphs[1..]
    ensures AppendsFindings(c.paragraphs[0], r.paragraphs[0])
    ensures AddedTexts(c.paragraphs[0], r.paragraphs[0]) == [text]
  {
    Cell(c.paragraphs[0 := CommentFormatting(c.paragraphs[0], text)])
  }

  // ---------------------------------------------------------------------
  // mark_empty_cells

  /** Adds "EMPTY" to the first paragraph of an empty cell; leaves any other cell alone. */
  function MarkEmptyCells(c: Cell): (r: Cell)
    requires |c.paragraphs| > 0
    ensures |r.paragraphs| == |c.paragraphs| && r.paragraphs[1..] == c.paragraphs[1..]
    ensures IsEmptyCell(c) ==> AppendsFindings(c.paragraphs[0], r.paragraphs[0])
                               && AddedTexts(c.paragraphs[0], r.paragraphs[0]) == [EmptyLabel]
    ensures !IsEmptyCell(c) ==> r == c
    ensures !IsEmptyCell(r)
  {
    if IsEmptyCell(c) then
      var r := CommentFirstParagraph(c, EmptyLabel);
      var p := c.paragraphs[0];
      assert r.paragraphs[0].runs[|p.runs|] == r.paragraphs[0].runs[|p.runs|..][0];
      r
    else
      c
  }

  // ---------------------------------------------------------------------
  // check_for_existing_findings

  /** A run the reviewer wrote: bold, alert-coloured, and upper case once stripped. */
  predicate IsFinding(r: Run) {
    r.bold == On && r.color == AlertRed && IsUpper(Strip(r.text))
  }

  predicate RunsHaveFinding(rs: seq<Run>) {
    exists j :: 0 <= j < |rs| && IsFinding(rs[j])
  }

  predicate ParagraphHasFinding(p: Paragraph) {
    RunsHaveFinding(p.runs)
  }

  predicate HasFinding(ps: seq<Paragraph>) {
    exists i :: 0 <= i < |ps| && RunsHaveFinding(ps[i].runs)
  }

  /** Run `j` of paragraph `i` is the first finding in paragraph-then-run order. */
  predicate IsFirstFinding(ps: seq<Paragraph>, i: int, j: int) {
    && 0 <= i < |ps|
    && 0 <= j < |ps[i].runs|
    && IsFinding(ps[i].runs[j])
    && (forall h :: 0 <= h < i ==> !RunsHaveFinding(ps[h].runs))
    && (forall k :: 0 <= k < j ==> !IsFinding(ps[i].runs[k]))
  }

  /** Index of the first finding among `rs`, or `|rs|` when there is none. */
  function FirstFindingRun(rs: seq<Run>): (k: nat)
    ensures k <= |rs|
    ensures forall j :: 0 <= j < k ==> !IsFinding(rs[j])
    ensures k < |rs| ==> IsFinding(rs[k])
  {
    FirstIndex(IsFinding, rs)
  }

  /** Index of the first paragraph holding a finding, or `|ps|` when there is none. */
  function FirstFindingParagraph(ps: seq<Paragraph>): (i: nat)
    ensures i <= |ps|
    ensures forall h :: 0 <= h < i ==> !RunsHaveFinding(ps[h].runs)
    ensures i < |ps| ==> RunsHaveFinding(ps[i].runs)
  {
    FirstIndex(ParagraphHasFinding, ps)
  }

  function Underlined(r: Run): Run {
    r.(underline := On)
  }

  /** `ps` with run `j` of paragraph `i` underlined. */
  function UnderlineAt(ps: seq<Paragraph>, i: int, j: int): seq<Paragraph>
    requires 0 <= i < |ps| && 0 <= j < |ps[i].runs|
  {
    ps[i := ps[i].(runs := ps[i].runs[j := Underlined(ps[i].runs[j])])]
  }

  datatype Scan = Scan(paragraphs: seq<Paragraph>, found: bool)

  /**
   Reports whether the paragraphs hold a finding, underlining the first one
   found and leaving everything else as it was.
   */
  function CheckForExistingFindings(ps: seq<Paragraph>): (r: Scan)
    ensures r.found <==> HasFinding(ps)
    ensures !r.found ==> r.paragraphs == ps
    ensures r.found ==> exists i, j :: IsFirstFinding(ps, i, j) && r.paragraphs == UnderlineAt(ps, i, j)
  {
    var i := FirstFindingParagraph(ps);
    if i == |ps| then
      Scan(ps, false)
    else
      var j := FirstFindingRun(ps[i].runs);
      assert IsFirstFinding(ps, i, j);
      Scan(UnderlineAt(ps, i, j), true)
  }

  // ---------------------------------------------------------------------
  // check_and_mark_cdash_cells

  /** The place of each hyphen rule in the source, which is the order their labels are appended in. */
  function RuleOrder(text: string): int {
    if text == RedundantSpacesLabel then 0 else if text == DashLabel then 1 else 2
  }

  /**
   What the hyphen rules must add for the stripped cell text `t`, as the list
   of labels `added`: each rule fires on its own, each label at most once,
   and the labels come in the order of the rules.
   */
  predicate CdashVerdict(t: string, added: seq<string>) {
    && (RedundantSpacesLabel in added <==> Contains(t, " -") || Contains(t, "- "))
    && (DashLabel in added <==> Contains(t, EmDash))
    && (MissingHyphenLabel in added <==>
          !Contains(t, Hyphen) && !Contains(t, EmDash) && !Contains(t, NotApplicable))
    && (forall k :: 0 <= k < |added| ==>
          added[k] == RedundantSpacesLabel || added[k] == DashLabel || added[k] == MissingHyphenLabel)
    && (forall k, l :: 0 <= k < l < |added| ==> RuleOrder(added[k]) < RuleOrder(added[l]))
  }

  /** The source returns `None` when the cell already holds a finding, `False` otherwise. */
  datatype CdashResult = CdashResult(cell: Cell, returned: Option<bool>)

  /**
   The hyphen-convention rules for a cell of the CDASH column, as three
   independent tests on the cell's stripped text. A cell that already holds a
   finding gets nothing new.
   */
  function CheckAndMarkCdashCells(c: Cell): (r: CdashResult)
    requires |c.paragraphs| > 0
    ensures r.returned == None <==> HasFinding(c.paragraphs)
    ensures r.returned == None || r.returned == Some(false)
    ensures HasFinding(c.paragraphs) ==> r.cell.paragraphs == CheckForExistingFindings(c.paragraphs).paragraphs
    ensures HasFinding(c.paragraphs) ==> SameUpToUnderline(c.paragraphs, r.cell.paragraphs)
    ensures !HasFinding(c.paragraphs) ==>
              && |r.cell.paragraphs| == |c.paragraphs|
              && r.cell.paragraphs[1..] == c.paragraphs[1..]
              && AppendsFindings(c.paragraphs[0], r.cell.paragraphs[0])
              && CdashVerdict(Strip(CellText(c)), AddedTexts(c.paragraphs[0], r.cell.paragraphs[0]))
  {
    var text := Strip(CellText(c));
    var scan := CheckForExistingFindings(c.paragraphs);
    if scan.found then
      UnderlineAtIsSameUpToUnderline(c.paragraphs);
      CdashResult(Cell(scan.paragraphs), None)
    else
      var p0 := c.paragraphs[0];
      var p1 := if Contains(text, Hyphen) && (Contains(text, " -") || Contains(text, "- "))
                then CommentFormatting(p0, RedundantSpacesLabel) else p0;
      var p2 := if Contains(text, EmDash) then CommentFormatting(p1, DashLabel) else p1;
      var p3 := if !Contains(text, Hyphen) && !Contains(text, NotApplicable) && !Contains(text, EmDash)
                then CommentFormatting(p2, MissingHyphenLabel) else p2;
      CdashRulesVerdict(text, p0, p1, p2, p3);
      CdashResult(Cell(c.paragraphs[0 := p3]), Some(false))
  }

  /** Appending findings twice is appending the texts of both, in order. */
  lemma AppendsCompose(p: Paragraph, q: Paragraph, s: Paragraph)
    requires AppendsFindings(p, q) && AppendsFindings(q, s)
    ensures AppendsFindings(p, s)
    ensures AddedTexts(p, s) == AddedTexts(p, q) + AddedTexts(q, s)
  {
    assert s.runs[..|p.runs|] == s.runs[..|q.runs|][..|p.runs|];
  }

  /** The labels the three rules append, in rule order, given which of them fire. */
  function RuleLabels(spaced: bool, dashed: bool, missing: bool): seq<string> {
    (if spaced then [RedundantSpacesLabel] else [])
      + (if dashed then [DashLabel] else [])
      + (if missing then [MissingHyphenLabel] else [])
  }

  /** Each label is in the list exactly when its rule fires, and the list is in rule order. */
  lemma RuleLabelsInOrder(spaced: bool, dashed: bool, missing: bool)
    ensures var a := RuleLabels(spaced, dashed, missing);
      && (RedundantSpacesLabel in a <==> spaced)
      && (DashLabel in a <==> dashed)
      && (MissingHyphenLabel in a <==> missing)
      && (forall k :: 0 <= k < |a| ==>
            a[k] == RedundantSpacesLabel || a[k] == DashLabel || a[k] == MissingHyphenLabel)
      && (forall k, l :: 0 <= k < l < |a| ==> RuleOrder(a[k]) < RuleOrder(a[l]))
  {
  }

  lemma CdashRulesVerdict(t: string, p0: Paragraph, p1: Paragraph, p2: Paragraph, p3: Paragraph)
    requires p1 == if Contains(t, Hyphen) && (Contains(t, " -") || Contains(t, "- "))
                   then CommentFormatting(p0, RedundantSpacesLabel) else p0
    requires p2 == if Contains(t, EmDash) then CommentFormatting(p1, DashLabel) else p1
    requires p3 == if !Contains(t, Hyphen) && !Contains(t, NotApplicable) && !Contains(t, EmDash)
                   then CommentFormatting(p2, MissingHyphenLabel) else p2
    ensures AppendsFindings(p0, p3)
    ensures CdashVerdict(t, AddedTexts(p0, p3))
  {
    if Contains(t, " -") {
      assert " " + "-" == " -";
      ContainsParts(t, " ", "-");
    }
    if Contains(t, "- ") {
      assert "-" + " " == "- ";
      ContainsParts(t, "-", " ");
    }
    var spaced := Contains(t, Hyphen) && (Contains(t, " -") || Contains(t, "- "));
    var dashed := Contains(t, EmDash);
    var missing := !Contains(t, Hyphen) && !Contains(t, NotApplicable) && !Contains(t, EmDash);
    AppendsCompose(p0, p1, p2);
    AppendsCompose(p0, p2, p3);
    assert AddedTexts(p0, p1) == if spaced then [RedundantSpacesLabel] else [];
    assert AddedTexts(p1, p2) == if dashed then [DashLabel] else [];
    assert AddedTexts(p2, p3) == if missing then [MissingHyphenLabel] else [];
    assert AddedTexts(p0, p3) == RuleLabels(spaced, dashed, missing);
    RuleLabelsInOrder(spaced, dashed, missing);
  }

  /** Underlining one run changes that run's underline and nothing else. */
  lemma UnderlineAtSame(ps: seq<Paragraph>, i: int, j: int)
    requires 0 <= i < |ps| && 0 <= j < |ps[i].runs|
    ensures SameUpToUnderline(ps, UnderlineAt(ps, i, j))
  {
    var qs := UnderlineAt(ps, i, j);
    forall h, k | 0 <= h < |ps| && 0 <= k < |ps[h].runs|
      ensures SameRunUpToUnderline(ps[h].runs[k], qs[h].runs[k])
    {
      if h == i && k == j {
        assert qs[h].runs[k] == Underlined(ps[h].runs[k]);
      } else if h == i {
        assert qs[h].runs[k] == ps[h].runs[k];
      } else {
        assert qs[h] == ps[h];
      }
    }
  }

  /** Underlining the first finding keeps every run in place. */
  lemma UnderlineAtIsSameUpToUnderline(ps: seq<Paragraph>)
    ensures SameUpToUnderline(ps, CheckForExistingFindings(ps).paragraphs)
  {
    var r := CheckForExistingFindings(ps);
    if r.found {
      var i, j :| IsFirstFinding(ps, i, j) && r.paragraphs == UnderlineAt(ps, i, j);
      UnderlineAtSame(ps, i, j);
    }
  }

  // ---------------------------------------------------------------------
  // find_cdash_column

  /** A header cell naming the CDASH column, in any letter case. */
  predicate IsCdashHeader(c: Cell) {
    Contains(Upper(CellText(c)), CdashMarker)
  }

  function FindCdashColumnFrom(header: seq<Cell>, i: nat): (r: Option<nat>)
    requires i <= |header|
    ensures r.Some? ==> i <= r.value < |header| && IsCdashHeader(header[r.value])
                        && forall j :: i <= j < r.value ==> !IsCdashHeader(header[j])
    ensures r.None? ==> forall j :: i <= j < |header| ==> !IsCdashHeader(header[j])
    decreases |header| - i
  {
    if i == |header| then None
    else if IsCdashHeader(header[i]) then Some(i)
    else FindCdashColumnFrom(header, i + 1)
  }

  /** The leftmost column whose header mentions CDASH, if any. */
  function FindCdashColumn(header: seq<Cell>): (r: Option<nat>)
    ensures r.Some? ==> r.value < |header| && IsCdashHeader(header[r.value])
                        && forall j :: 0 <= j < r.value ==> !IsCdashHeader(header[j])
    ensures r.None? <==> forall j :: 0 <= j < |header| ==> !IsCdashHeader(header[j])
  {
    FindCdashColumnFrom(header, 0)
  }

  // ---------------------------------------------------------------------
  // check_and_mark_alignment_issue

  /** One of the first `n` paragraphs is centred. */
  predicate CentredBefore(ps: seq<Paragraph>, n: int) {
    exists h :: 0 <= h < n && h < |ps| && ps[h].alignment == Center
  }

  predicate HasCentredParagraph(c: Cell) {
    CentredBefore(c.paragraphs, |c.paragraphs|)
  }

  datatype AlignmentResult = AlignmentResult(last: Cell, missing: bool)

  /** `ps` has a centred paragraph exactly when its first one is centred or its tail has one. */
  lemma CentredSplit(ps: seq<Paragraph>)
    requires |ps| > 0
    ensures CentredBefore(ps, |ps|) <==> ps[0].alignment == Center || CentredBefore(ps[1..], |ps| - 1)
  {
    if CentredBefore(ps, |ps|) && ps[0].alignment != Center {
      var h :| 0 <= h < |ps| && ps[h].alignment == Center;
      assert ps[1..][h - 1] == ps[h];
    }
    if CentredBefore(ps[1..], |ps| - 1) {
      var h :| 0 <= h < |ps| - 1 && ps[1..][h].alignment == Center;
      assert ps[h + 1] == ps[1..][h];
    }
  }

  /**
   The loop of the alignment rule over the paragraphs `ps` of the cell, from
   first to last, stopping once the finding is added. Every centred paragraph
   looks at the last cell again; only the first look can change it.
   */
  function AlignmentLoop(ps: seq<Paragraph>, last: Cell): (r: AlignmentResult)
    requires |ps| == 0 || |last.paragraphs| > 0
    ensures var flagged := CentredBefore(ps, |ps|) && !Contains(CellText(last), CenterAlignedNote);
      && (r.missing <==> flagged && !HasFinding(last.paragraphs))
      && (r.missing ==> r.last == CommentFirstParagraph(last, MissingAlignmentLabel))
      && (!r.missing && flagged ==> r.last == Cell(CheckForExistingFindings(last.paragraphs).paragraphs))
      && (!flagged ==> r.last == last)
  {
    if |ps| == 0 then AlignmentResult(last, false)
    else
      CentredSplit(ps);
      if ps[0].alignment == Center && !Contains(CellText(last), CenterAlignedNote) then
        var scan := CheckForExistingFindings(last.paragraphs);
        if !scan.found then AlignmentResult(CommentFirstParagraph(last, MissingAlignmentLabel), true)
        else
          ScanSummary(last);
          AlignmentLoop(ps[1..], Cell(scan.paragraphs))
      else
        AlignmentLoop(ps[1..], last)
  }

  /**
   A cell with a centred paragraph needs a note in the row's last cell: either
   the words "center aligned" or an existing finding. When neither is there,
   the finding is added to the last cell's first paragraph. Returns the last
   cell as updated and whether the finding was added.
   */
  function CheckAndMarkAlignmentIssue(cell: Cell, last: Cell): (r: AlignmentResult)
    requires |cell.paragraphs| == 0 || |last.paragraphs| > 0
    ensures r.missing <==> HasCentredParagraph(cell)
                           && !Contains(CellText(last), CenterAlignedNote)
                           && !HasFinding(last.paragraphs)
    ensures r.missing ==> && |r.last.paragraphs| == |last.paragraphs|
                          && r.last.paragraphs[1..] == last.paragraphs[1..]
                          && AppendsFindings(last.paragraphs[0], r.last.paragraphs[0])
                          && AddedTexts(last.paragraphs[0], r.last.paragraphs[0]) == [MissingAlignmentLabel]
    ensures !r.missing ==> SameUpToUnderline(last.paragraphs, r.last.paragraphs)
    ensures HasCentredParagraph(cell) && !Contains(CellText(last), CenterAlignedNote) && HasFinding(last.paragraphs) ==>
              r.last == Cell(CheckForExistingFindings(last.paragraphs).paragraphs)
    ensures !HasCentredParagraph(cell) || Contains(CellText(last), CenterAlignedNote) ==> r.last == last
  {
    ScanSummary(last);
    SameUpToUnderlineReflexive(last.paragraphs);
    AlignmentLoop(cell.paragraphs, last)
  }

  /** What the alignment rule needs to know about scanning the last cell. */
  lemma ScanSummary(last: Cell)
    ensures var s := CheckForExistingFindings(last.paragraphs);
      && (s.found <==> HasFinding(last.paragraphs))
      && (!s.found ==> s.paragraphs == last.paragraphs)
      && SameUpToUnderline(last.paragraphs, s.paragraphs)
      && CellText(Cell(s.paragraphs)) == CellText(last)
      && CheckForExistingFindings(s.paragraphs) == s
  {
    var s := CheckForExistingFindings(last.paragraphs);
    UnderlineAtIsSameUpToUnderline(last.paragraphs);
    UnderlineKeepsText(last.paragraphs, s.paragraphs);
    FindingsSurviveScan(last.paragraphs);
  }

  /** Underlining a run never changes which runs are findings. */
  lemma UnderlineAtKeepsFindings(ps: seq<Paragraph>, i: int, j: int)
    requires 0 <= i < |ps| && 0 <= j < |ps[i].runs|
    ensures var qs := UnderlineAt(ps, i, j);
      forall h :: 0 <= h < |ps| ==> RunsHaveFinding(qs[h].runs) == RunsHaveFinding(ps[h].runs)
  {
    var qs := UnderlineAt(ps, i, j);
    forall h | 0 <= h < |ps|
      ensures RunsHaveFinding(qs[h].runs) == RunsHaveFinding(ps[h].runs)
    {
      if h == i {
        var rs, ts := ps[h].runs, qs[h].runs;
        assert forall k :: 0 <= k < |rs| ==> IsFinding(ts[k]) == IsFinding(rs[k]);
        if RunsHaveFinding(rs) {
          var k :| 0 <= k < |rs| && IsFinding(rs[k]);
          assert IsFinding(ts[k]);
        }
        if RunsHaveFinding(ts) {
          var k :| 0 <= k < |ts| && IsFinding(ts[k]);
          assert IsFinding(rs[k]);
        }
      } else {
        assert qs[h] == ps[h];
      }
    }
  }

  /** There is only one first finding. */
  lemma FirstFindingUnique(ps: seq<Paragraph>, i: int, j: int, i': int, j': int)
    requires IsFirstFinding(ps, i, j) && IsFirstFinding(ps, i', j')
    ensures i == i' && j == j'
  {
    if i < i' {
      assert RunsHaveFinding(ps[i].runs);
    } else if i' < i {
      assert RunsHaveFinding(ps[i'].runs);
    }
  }

  /** After underlining the first finding, it is still the first finding, and already underlined. */
  lemma UnderlinedFirstFinding(ps: seq<Paragraph>, i: int, j: int)
    requires IsFirstFinding(ps, i, j)
    ensures IsFirstFinding(UnderlineAt(ps, i, j), i, j)
    ensures UnderlineAt(UnderlineAt(ps, i, j), i, j) == UnderlineAt(ps, i, j)
  {
    var qs := UnderlineAt(ps, i, j);
    UnderlineAtKeepsFindings(ps, i, j);
    var rs, ts := ps[i].runs, qs[i].runs;
    assert ts == rs[j := Underlined(rs[j])];
    assert ts[j].text == rs[j].text && ts[j].bold == rs[j].bold && ts[j].color == rs[j].color;
    forall k | 0 <= k < j
      ensures !IsFinding(ts[k])
    {
      assert ts[k] == rs[k];
    }
    UnderlineAtTwice(ps, i, j);
  }

  /** Underlining a run that is already underlined changes nothing. */
  lemma UnderlineAtTwice(ps: seq<Paragraph>, i: int, j: int)
    requires 0 <= i < |ps| && 0 <= j < |ps[i].runs|
    ensures UnderlineAt(UnderlineAt(ps, i, j), i, j) == UnderlineAt(ps, i, j)
  {
    var qs := UnderlineAt(ps, i, j);
    var ts := qs[i].runs;
    assert Underlined(ts[j]) == ts[j];
    assert ts[j := Underlined(ts[j])] == ts;
    assert qs[i := qs[i].(runs := ts)] == qs;
  }

  /**
   Scanning the result of a scan finds the same first finding again, so the
   second scan changes nothing further.
   */
  lemma FindingsSurviveScan(ps: seq<Paragraph>)
    ensures var r := CheckForExistingFindings(ps);
            HasFinding(r.paragraphs) == HasFinding(ps) && CheckForExistingFindings(r.paragraphs) == r
  {
    var r := CheckForExistingFindings(ps);
    if r.found {
      var i, j :| IsFirstFinding(ps, i, j) && r.paragraphs == UnderlineAt(ps, i, j);
      var qs := r.paragraphs;
      UnderlinedFirstFinding(ps, i, j);
      var r2 := CheckForExistingFindings(qs);
      var i2, j2 :| IsFirstFinding(qs, i2, j2) && r2.paragraphs == UnderlineAt(qs, i2, j2);
      FirstFindingUnique(qs, i, j, i2, j2);
    }
  }
}

=== FILE: seqs.dfy ===
/** Searches over sequences shared by the reviewer's scans. */
module Seqs {

  /** The index of the first element of `xs` that satisfies `f`, or `|xs|` when none does. */
  function FirstIndex<T>(f: T -> bool, xs: seq<T>): (k: nat)
    ensures k <= |xs|
    ensures forall j :: 0 <= j < k ==> !f(xs[j])
    ensures k < |xs| ==> f(xs[k])
  {
    if |xs| == 0 || f(xs[0]) then 0
    else
      var k := FirstIndex(f, xs[1..]);
      assert forall j :: 1 <= j < k + 1 ==> xs[j] == xs[1..][j - 1];
      1 + k
  }

  /** Whether every element of `xs` satisfies `f`, checked from the front. */
  function AllOf<T>(f: T -> bool, xs: seq<T>): (r: bool)
    ensures r <==> forall j :: 0 <= j < |xs| ==> f(xs[j])
  {
    if |xs| == 0 then true
    else if !f(xs[0]) then false
    else
      var r := AllOf(f, xs[1..]);
      assert forall j :: 1 <= j < |xs| ==> xs[j] == xs[1..][j - 1];
      r
  }
}

=== FILE: wrappers.dfy ===
/** A value that may be absent, the model of Python's `None`-or-value results. */
module Wrappers {

  datatype Option<T> = None | Some(value: T)
}
